=== FILE: README.md ===
# Notification triggers — a Dafny model

This project models the decision logic of the Firebase trigger handlers in
`functions/src/index.ts`: the presence reconciler (`onUserStatusChanged`), the
handlers that turn domain documents into notification records
(`onCreditAdded`, `onNewJoinRequest`), the handlers that turn a stored record
or a chat message into a push (`onNewNotification`, `onNewChatMessage`), and
the push dispatcher with its token pruning (`sendPushNotification`).

Every data-store read, the multicast provider's reply and every write are
taken out of the handlers. A document lookup becomes an `Option` input
(`None` is a document that does not exist). The provider's reply is an input
(`Threw`, or one result per token). A write becomes the value a handler
returns: a notification record, a status update, or the values of an
`arrayRemove` update. Document fields are `Option<string>` because the
handlers read untyped documents. Two JavaScript idioms are written out:
a template literal renders an absent field as `undefined` (`Render`), and
`a || fallback` falls back when the field is absent or empty (`OrElse`).
`===` between two absent fields is true, and `Option` equality behaves the
same way. So a credit with no `userId` on a project with no `createdBy`
counts as a self-grant, as it does in the source.

Modules:

- `Wrappers`: `Option`.
- `Documents`: user documents, notification records, push requests, and the
  two field idioms above.
- `Presence`: `Reconcile` maps a heartbeat change to a field update. `Apply`,
  `Observe` and `Replay` apply updates to the user document in the order
  they are applied, which the trigger does not tie to the order the
  heartbeats were written. `Writable`
  says which updates Firestore accepts. The lemmas show that an offline user
  always has a defined `lastSeen` and that the last accepted heartbeat decides
  the status.
- `Records`: the credit and join-request classifiers, their message
  templates, and the records that `add()` actually stores.
- `PushContent`: the push for a stored record and for a chat message. It
  also holds the lemmas that connect a saved record to the push it causes.
- `TokenSet`: `arrayRemove` on the stored token array.
- `Dispatch`: token resolution, the removal list, the dispatch outcome, and
  the pruning lemmas.
- `Fanout`: the `forEach` loop of `sendPushNotification` over the multicast
  results, shown to build exactly `Dispatch.RemovalList`.
- `Scenarios`: concrete credit, presence and pruning examples.

The multicast provider returns one result per token, in the order the tokens
were sent. The source relies on this when it reads `tokens[index]`. The model
states it as the precondition `Dispatch.Aligned`.

Four behaviours of the code as written:

- Tokens are stored in an array that may hold duplicates. `arrayRemove`
  deletes every occurrence of a pruned token, even one that was also sent
  successfully at another position.
- A stored `join_request` record gets the generic push "New Notification" /
  "You have a new update.".
- A chat whose first non-sender participant is the empty string produces no
  push, because `find` returns `""` and `!recipientId` rejects it.
- Firestore refuses a write that carries an `undefined` value. An `"offline"`
  heartbeat without a timestamp therefore changes nothing. A join-request
  record with an undefined field is never stored (see Findings).

## Model

| member | source | states |
|---|---|---|
| Presence.Reconcile | functions/src/index.ts:23-60 | A deleted heartbeat gives offline with the server time as `lastSeen`. `"online"` gives online and leaves `lastSeen` alone. `"offline"` gives offline with the heartbeat's own timestamp. Any other status gives no update. An update carries a `lastSeen` exactly when it sets offline. |
| Presence.ObservePreservesConsistent | functions/src/index.ts:29-56 | After any heartbeat change, an offline user still has a defined `lastSeen`: the server time or a client timestamp, never `undefined`. A user who comes online keeps the `lastSeen` they had. |
| Presence.ObserveIdempotent | functions/src/index.ts:29-59 | Reconciling the same heartbeat change twice leaves the user document as reconciling it once does, with the server time as one opaque value (see Left out). |
| Presence.UndatedOfflineRefused | functions/src/index.ts:50-56 | An `"offline"` heartbeat without a timestamp issues an update with an `undefined` `lastSeen`. Firestore refuses it, so the user document stays exactly as it was. |
| Presence.LastWrite | functions/src/index.ts:29-59 | The update chosen is issued and accepted by Firestore, comes from some change of the stream, and no later change issues an accepted update. With no result, no change of the stream issues an accepted update. |
| Presence.ReplayLastWins | functions/src/index.ts:23-60 | Over any stream of heartbeat changes, from any starting document, the last one whose update is issued and accepted decides the final status. The stream is taken in the order the handler's updates are applied; the trigger does not promise that this is the order the heartbeats were written. An offline status carries the `lastSeen` that heartbeat chose. A stream with no such heartbeat changes nothing. From a document where an offline user has a defined `lastSeen`, offline users keep a defined `lastSeen`. |
| Records.CreditNotification | functions/src/index.ts:166-226 | The record handed to `add()`. None is built when the credit data is missing, the `projectId` or `userId` is empty (its lookup at line 176 or 201 throws), the project is missing, the credited user created the project, or the credited user's document is missing. Otherwise the one record goes to `credit.userId`, who is never the project's creator. It has type `credit_request`, references the credit id, is unread, is signed with the creator name (default "A Project Manager"), and says "`<creator>` added you as '`<role>`' on '`<title>`'". |
| Records.JoinNotification | functions/src/index.ts:394-422 | The record handed to `add()`. One is built exactly when the request data is present and its status is `"pending"`. It goes to `projectCreatorId`, has type `join_request`, references the request id, is unread, carries the requester's name, id, picture and the project id, and says "`<name>` requested to join '`<title>`' as '`<role>`'." With undefined fields left out of the write, this is also the record the handler evidently means to store. |
| Records.StoredJoinRecord | functions/src/index.ts:411-429 | The record actually stored. It exists exactly when the request is pending and every field the handler copies from it is defined: creator id, requester name, requester id, picture and project id. It is then the built record. Otherwise `add()` refuses the write and the handler swallows the error. |
| Records.JoinWithoutPictureNotStored | functions/src/index.ts:415-429 | A pending request without a profile picture gets a built record, but none is stored. |
| Records.StoredCreditRecord | functions/src/index.ts:217-226 | The record actually stored. It exists exactly when a credit record is built and the credit's `userId` is defined. It is then the built record. |
| Records.CreditMessageSigned | functions/src/index.ts:198-214 | A credit message opens with the creator's name, or with "A Project Manager" when the name is absent or empty. |
| PushContent.StoredNotificationPush | functions/src/index.ts:261-287 | Every stored record yields one push to its `recipientId`. `connection_request` gives "New Connection Request" / "`<senderName>` wants to connect with you.". `credit_request` gives "New Project Credit" with the stored message as the body. Every other type gives "New Notification" / "You have a new update.". |
| PushContent.FirstOther | functions/src/index.ts:309-310 | The result is the first participant who is not the sender. There is none exactly when every participant is the sender. |
| PushContent.ChatPush | functions/src/index.ts:289-324 | A push is made exactly when the message, the chat and its participants are present, the first non-sender participant is a non-empty id, and the `senderId` is not empty. An empty `senderId` makes the sender lookup at line 317 throw. The push goes to that participant, never to the sender. Its title is "New Message from `<fullName>`" (default "Someone") and its body is the message text unchanged. |
| PushContent.TwoPartyChatRecipient | functions/src/index.ts:309-321 | In a two-person chat of two non-empty ids, with the participants stored in either order, the push goes to the participant who did not send the message, with the text as its body. |
| PushContent.CreditRecordPush | functions/src/index.ts:278-286 | A stored credit record becomes a "New Project Credit" push to the credited user, with the credit message as its body. |
| PushContent.JoinRecordPush | functions/src/index.ts:275-286 | A saved join-request record becomes the generic "New Notification" push to the project creator. |
| Dispatch.DestinationTokens | functions/src/index.ts:332-340 | Tokens are found exactly when the user document exists and `fcmTokens` is a non-empty array. They are that array. |
| Dispatch.RemovalListMembers | functions/src/index.ts:366-381 | A token is on the removal list exactly when some position holding it failed with `messaging/invalid-registration-token` or `messaging/registration-token-not-registered`. Successes, other error codes and failures without an error add nothing. |
| Fanout.CollectRemovals | functions/src/index.ts:366-381 | The `forEach` over the per-token results builds exactly the removal list, using each result's position to pick the token. |
| Dispatch.Deliver | functions/src/index.ts:327-392 | Nothing is sent when the recipient id is empty, because the lookup at line 332 throws. Nothing is sent when there are no tokens either. Otherwise one multicast carries the title, body and every token. A thrown multicast prunes nothing. A prune update happens only after a reply, is non-empty, and names exactly the tokens at permanently failed positions. No update means no position failed permanently. |
| Dispatch.PruneExactly | functions/src/index.ts:366-388 | Once the recipient's document was read and the provider replied, a token survives exactly when it was stored and no position it was sent to failed permanently. Successes, other error codes and failures without an error never prune. |
| Dispatch.NoPruneWithoutReply | functions/src/index.ts:332-391 | When the recipient lookup throws, without tokens, or when the multicast throws, the stored token array stays exactly as it was. |
| Dispatch.DistinctTokensPrunedByPosition | functions/src/index.ts:366-387 | When the stored tokens are distinct, pruning removes exactly the tokens at the permanently failed positions and keeps every other token in order. |
| Dispatch.ConcurrentRegistrationSurvives | functions/src/index.ts:383-387 | The update is a set difference, so tokens appended between lookup and update are filtered on their own. One that is not on the removal list survives. |
| TokenSet.ArrayRemove | functions/src/index.ts:386 | `arrayRemove` keeps exactly the stored tokens that are not among the removed values, and never lengthens the array. |
| TokenSet.ArrayRemoveAppend | functions/src/index.ts:386 | Removal distributes over concatenation, so the relative order of the kept tokens is preserved. |
| TokenSet.ArrayRemoveNoMatch | functions/src/index.ts:386 | Removing values the array does not hold leaves it unchanged. |
| TokenSet.ArrayRemoveIdempotent | functions/src/index.ts:386 | Applying the same removal twice has the effect of applying it once. |
| TokenSet.ArrayRemoveExtraValue | functions/src/index.ts:386 | An extra removed value that the array does not hold changes nothing. |
| Scenarios.CreditForOtherUser | functions/src/index.ts:192-225 | Alice crediting U2 as Editor on "Film X" (a project U1 created) yields one record to U2 saying "Alice added you as 'Editor' on 'Film X'". |
| Scenarios.CreditForCreator | functions/src/index.ts:192-195 | The same credit on a project U2 created yields no record. |
| Scenarios.HeartbeatDeleted | functions/src/index.ts:29-36 | A deleted heartbeat sets the user offline at the server's time. |
| Scenarios.PruneUnregisteredOnly | functions/src/index.ts:366-387 | Tokens `t1, t2, t3` with results success, unregistered and a transient error end up as `t1, t3`. |

## Left out

- The search-index sync (`ensureAlgoliaClient`, `onUserUpdated`, `onProjectCreated`, `onProjectUpdated`, `onProjectDeleted`) is left out. It copies fields to a foreign client held in a lazily initialised global.
- The legacy push that `onCreditAdded` sends after saving the record (lines 230-256) is left out. It is a single-token payload built from the user's `fcmToken`, the message and the credit's ids. It can reject after the record is already saved.
- The two project checks in `onCreditAdded` (document missing, data empty) are one `None` here. Firestore's `data()` is undefined exactly when the document does not exist.
- A chat document without a `participants` array makes the source throw a `TypeError`. The model treats that as "no push".
- `serverTimestamp()` is the opaque value `ServerTime`. The records' `timestamp` field is not represented, because nothing in the core reads it.
- Presence.ObserveIdempotent: holds for a deleted heartbeat only because `ServerTime` is one value. Firestore resolves each `serverTimestamp()` write to its own commit time (lines 32-36), so a redelivered deletion moves `lastSeen` to the later commit time.
- `null` is not told apart from an absent field. Three consequences follow:
  - A `null` field would render as "null" in a template, not "undefined".
  - Firestore's `add()` accepts `null` and refuses only `undefined`. So a pending request whose `requestingUserProfilePic` is `null` is stored by the source, but `Records.StoredJoinRecord` returns `None`.
  - `null === undefined` is false at line 192. So a credit whose `userId` is `null`, on a project without `createdBy`, is not a self-grant in the source, but `Records.CreditNotification` returns `None`.
- PushContent.ChatPush: assumes the sender lookup at line 317 succeeds when the `senderId` is not empty. A failed read (network or permission) throws there before any push.
- Failed reads (network or permission errors) at lines 176, 201, 302, 317 and 332 are not modelled. Each throws out of its handler, so no record or push follows. Only the empty-id case, where `doc()` itself throws, is modelled. Ids that contain `/` address other paths; that is not modelled either.
- Records.CreditNotification: is the record handed to `add()`, not the stored one. A credit with no `userId` makes `add()` throw at line 226, so nothing is stored; `Records.StoredCreditRecord` states that.
- Records.JoinNotification: is the record handed to `add()`, not the stored one. A pending request with an undefined picture, requester id, requester name, creator id or project id is refused by `add()` at line 425, and the catch at lines 427-429 swallows the error; `Records.StoredJoinRecord` states that.
- Firestore refusing other values (nested `undefined`, values of the wrong type) is not modelled; only an `undefined` top-level field value is.
- Write failures other than a refused `undefined` value are not modelled, for example a network or permission error. This applies to the record `add`, the status `update` and the token `update`.
- Logging, secrets, and the Android/APNs sound hints of the multicast are left out.
- The atomicity of `arrayRemove` under concurrent writes is not modelled, only its set-difference result. Trigger delivery from a saved record to `onNewNotification` is also not modelled; `PushContent.CreditRecordPush` and `PushContent.JoinRecordPush` compose the two stages directly.
- Dispatch.Deliver: assumes the provider's reply has one result per token (`Aligned`). The source indexes `tokens[index]` on the same assumption.

## Findings

| source | as written | input that shows it | evidently intended | confidence | as-written member | corrected member |
|---|---|---|---|---|---|---|
| functions/src/index.ts:415-429 | `senderProfilePic: requestData.requestingUserProfilePic` is written even when the request has no picture, and `add()` refuses a field whose value is `undefined`; the error is caught and only logged | a pending join request with every field but `requestingUserProfilePic`, which is absent (not `null`) | the picture is "Optional", so the record is stored without it and the project creator is notified | medium, not executed | Records.StoredJoinRecord (shown by Records.JoinWithoutPictureNotStored) | Records.JoinNotification |

=== FILE: dispatch.dfy ===
/** The push dispatcher (`sendPushNotification`): resolve the recipient's
    device tokens, send one multicast to all of them, and prune exactly the
    tokens the provider reported as permanently invalid. The user lookup and
    the provider's reply are inputs. */
module Dispatch {
  import opened Wrappers
  import opened Documents
  import TokenSet

  const InvalidRegistrationToken := "messaging/invalid-registration-token"
  const TokenNotRegistered := "messaging/registration-token-not-registered"

  /** The provider's per-token result; `errorCode` is the code of the
      attached error, `None` when no error is attached. */
  datatype SendResponse = SendResponse(success: bool, errorCode: Option<string>)

  /** The multicast call either throws or answers with one result per
      token, in the order the tokens were sent. */
  datatype MulticastReply = Threw | Responded(responses: seq<SendResponse>)

  /** The one multicast request: content and every token of the recipient
      (the sound hints for Android and APNs are not represented). */
  datatype MulticastMessage = MulticastMessage(title: string, body: Option<string>, tokens: seq<string>)

  /** What one dispatch does: nothing when the recipient's document cannot
      be addressed (the lookup throws) or there are no tokens, otherwise one
      multicast and, possibly, one `arrayRemove` update of `fcmTokens`. */
  datatype Delivery = LookupThrew | NoDestinations | Attempted(message: MulticastMessage, prune: Option<seq<string>>)

  /** A failure whose error code marks the token as dead for good. */
  predicate Permanent(r: SendResponse) {
    !r.success && r.errorCode.Some?
    && (r.errorCode.value == InvalidRegistrationToken || r.errorCode.value == TokenNotRegistered)
  }

  /** The tokens a dispatch sends to: present only when `fcmTokens` is a
      non-empty array. */
  function DestinationTokens(user: Option<UserDoc>): (r: Option<seq<string>>)
    ensures r.Some? <==> user.Some? && user.value.fcmTokens.TokenArray?
                         && |user.value.fcmTokens.tokens| > 0
    ensures r.Some? ==> r.value == user.value.fcmTokens.tokens
  {
    if user.None? then None
    else match user.value.fcmTokens
      case TokenArray(tokens) => if |tokens| == 0 then None else Some(tokens)
      case _ => None
  }

  /** The removal list: the tokens at the positions whose result is a
      permanent failure, in position order. */
  function RemovalList(tokens: seq<string>, responses: seq<SendResponse>): (r: seq<string>)
    requires |responses| == |tokens|
    ensures |r| <= |tokens|
    decreases |tokens|
  {
    if |tokens| == 0 then []
    else
      var n := |tokens| - 1;
      var prefix := RemovalList(tokens[..n], responses[..n]);
      if Permanent(responses[n]) then prefix + [tokens[n]] else prefix
  }

  /** A token is on the removal list exactly when some position holding it
      failed permanently. */
  lemma {:induction false} RemovalListMembers(tokens: seq<string>, responses: seq<SendResponse>)
    requires |responses| == |tokens|
    ensures forall t :: t in RemovalList(tokens, responses) <==>
              exists i :: 0 <= i < |tokens| && tokens[i] == t && Permanent(responses[i])
    decreases |tokens|
  {
    if |tokens| > 0 {
      var n := |tokens| - 1;
      RemovalListMembers(tokens[..n], responses[..n]);
      assert forall i :: 0 <= i < n ==> tokens[..n][i] == tokens[i] && responses[..n][i] == responses[i];
    }
  }

  /** The tokens at the positions whose result is not a permanent failure,
      in position order. */
  function Survivors(tokens: seq<string>, responses: seq<SendResponse>): (r: seq<string>)
    requires |responses| == |tokens|
    ensures |r| + |RemovalList(tokens, responses)| == |tokens|
    decreases |tokens|
  {
    if |tokens| == 0 then []
    else
      var n := |tokens| - 1;
      var prefix := Survivors(tokens[..n], responses[..n]);
      if Permanent(responses[n]) then prefix else prefix + [tokens[n]]
  }

  /** The provider answered with one result per token that was sent. */
  predicate Aligned(user: Option<UserDoc>, reply: MulticastReply) {
    reply.Responded? && DestinationTokens(user).Some? ==>
      |reply.responses| == |DestinationTokens(user).value|
  }

  /** One dispatch of `push` to the user document `user`, given the
      provider's `reply` to the multicast. `user` is the lookup of
      `users/<recipientId>`. */
  function Deliver(push: PushRequest, user: Option<UserDoc>, reply: MulticastReply): (d: Delivery)
    requires Aligned(user, reply)
    ensures d.LookupThrew? <==> !Addressable(push.recipientId)
    ensures d.NoDestinations? <==> Addressable(push.recipientId) && DestinationTokens(user).None?
    ensures d.Attempted? ==>
              d.message == MulticastMessage(push.title, push.body, DestinationTokens(user).value)
    ensures d.Attempted? && reply.Threw? ==> d.prune.None?
    ensures d.Attempted? && d.prune.Some? ==>
              && reply.Responded?
              && |d.prune.value| > 0
              && forall t :: t in d.prune.value <==>
                   exists i :: 0 <= i < |d.message.tokens| && d.message.tokens[i] == t
                               && Permanent(reply.responses[i])
    ensures d.Attempted? && reply.Responded? && d.prune.None? ==>
              forall i :: 0 <= i < |reply.responses| ==> !Permanent(reply.responses[i])
  {
    if !Addressable(push.recipientId) then LookupThrew
    else match DestinationTokens(user)
    case None => NoDestinations
    case Some(tokens) =>
      var message := MulticastMessage(push.title, push.body, tokens);
      match reply
      case Threw => Attempted(message, None)
      case Responded(responses) =>
        RemovalListMembers(tokens, responses);
        var remove := RemovalList(tokens, responses);
        if |remove| > 0 then Attempted(message, Some(remove))
        else
          assert forall i :: 0 <= i < |responses| ==> (Permanent(responses[i]) ==> tokens[i] in remove);
          Attempted(message, None)
  }

  /** The stored token array after the dispatch's update, if any. */
  function TokensAfter(stored: seq<string>, d: Delivery): seq<string> {
    if d.Attempted? && d.prune.Some? then TokenSet.ArrayRemove(stored, d.prune.value) else stored
  }

  /** A token survives the dispatch exactly when it was stored and no
      position it was sent to failed permanently: successes, other error
      codes and failures without an error never prune. */
  lemma PruneExactly(push: PushRequest, user: Option<UserDoc>, reply: MulticastReply,
                     stored: seq<string>, t: string)
    requires Aligned(user, reply)
    requires Addressable(push.recipientId) && DestinationTokens(user).Some? && reply.Responded?
    ensures var tokens := DestinationTokens(user).value;
            t in TokensAfter(stored, Deliver(push, user, reply)) <==>
              t in stored && !exists i :: 0 <= i < |tokens| && tokens[i] == t && Permanent(reply.responses[i])
  {
  }

  /** When the recipient lookup throws, without tokens, or when the
      multicast throws, the stored array is left exactly as it was. */
  lemma NoPruneWithoutReply(push: PushRequest, user: Option<UserDoc>, reply: MulticastReply, stored: seq<string>)
    requires Aligned(user, reply)
    requires !Addressable(push.recipientId) || DestinationTokens(user).None? || reply.Threw?
    ensures TokensAfter(stored, Deliver(push, user, reply)) == stored
  {
  }

  /** When the stored tokens are distinct, pruning removes exactly the
      tokens at the permanently failed positions and keeps all others in
      order. */
  lemma {:induction false} DistinctTokensPrunedByPosition(tokens: seq<string>, responses: seq<SendResponse>)
    requires |responses| == |tokens|
    requires forall i, j :: 0 <= i < j < |tokens| ==> tokens[i] != tokens[j]
    ensures TokenSet.ArrayRemove(tokens, RemovalList(tokens, responses)) == Survivors(tokens, responses)
    decreases |tokens|
  {
    if |tokens| > 0 {
      var n := |tokens| - 1;
      var t := tokens[n];
      var front := tokens[..n];
      var removeFront := RemovalList(front, responses[..n]);
      assert tokens == front + [t];
      assert t !in front;
      RemovalListMembers(front, responses[..n]);
      assert t !in removeFront;
      DistinctTokensPrunedByPosition(front, responses[..n]);
      TokenSet.ArrayRemoveAppend(front, [t], RemovalList(tokens, responses));
      if Permanent(responses[n]) {
        TokenSet.ArrayRemoveExtraValue(front, removeFront, t);
      }
    }
  }

  /** The pruning update tolerates tokens registered between the lookup and
      the update: a newly appended token that is not on the removal list
      survives, and the old tokens are pruned as they would have been. */
  lemma ConcurrentRegistrationSurvives(stored: seq<string>, added: seq<string>, d: Delivery)
    ensures TokensAfter(stored + added, d) == TokensAfter(stored, d) + TokensAfter(added, d)
    ensures forall t :: t in added && !(d.Attempted? && d.prune.Some? && t in d.prune.value) ==>
              t in TokensAfter(stored + added, d)
  {
    if d.Attempted? && d.prune.Some? {
      TokenSet.ArrayRemoveAppend(stored, added, d.prune.value);
    }
  }
}

=== FILE: documents.dfy ===
/** Loosely-typed documents as the trigger handlers read them, and the two
    JavaScript idioms the handlers apply to possibly-absent string fields. */
module Documents {
  import opened Wrappers

  /** What the `fcmTokens` field of a user document holds, as far as the
      dispatcher can tell: nothing falsy-or-absent, something that is not
      an array, or an array of device tokens. */
  datatype TokenField = Absent | NotAnArray | TokenArray(tokens: seq<string>)

  /** A user document (`users/{uid}`): the display name the chat handler
      reads and the registered device tokens the dispatcher reads. */
  datatype UserDoc = UserDoc(fullName: Option<string>, fcmTokens: TokenField)

  /** A persisted notification record (`notifications/{id}`). Records written
      by an external producer may lack any field, so every field but `isRead`
      is optional. The server `timestamp` sentinel is not represented. */
  datatype NotificationRecord = NotificationRecord(
    recipientId: Option<string>,
    senderName: Option<string>,
    senderId: Option<string>,
    senderProfilePic: Option<string>,
    kind: Option<string>,
    message: Option<string>,
    referenceId: Option<string>,
    projectId: Option<string>,
    isRead: bool)

  /** A request to the push dispatcher: recipient, title and body. */
  datatype PushRequest = PushRequest(recipientId: Option<string>, title: string, body: Option<string>)

  /** How a template literal renders a string field: an absent field prints
      as the text "undefined". */
  function Render(v: Option<string>): string {
    match v
    case Some(s) => s
    case None => "undefined"
  }

  /** Whether `doc("<collection>/" + id)` names a document. An empty id
      leaves a one-segment path, which `doc()` refuses by throwing; an
      absent id renders as "undefined" and is looked up like any other. */
  predicate Addressable(id: Option<string>) {
    Render(id) != ""
  }

  /** JavaScript truthiness of a string field: present and non-empty. */
  predicate Truthy(v: Option<string>) {
    v.Some? && v.value != ""
  }

  /** The `v || fallback` idiom: the field when it is truthy, else the fallback. */
  function OrElse(v: Option<string>, fallback: string): (s: string)
    ensures Truthy(v) ==> s == v.value
    ensures !Truthy(v) ==> s == fallback
    ensures fallback != "" ==> s != ""
  {
    if Truthy(v) then v.value else fallback
  }
}

=== FILE: fanout.dfy ===
/** The dispatcher's loop over the multicast results, as `sendPushNotification`
    writes it, kept beside `Dispatch` and checked against its `RemovalList`. */
module Fanout {
  import Dispatch

  /** The `forEach` over the results that builds the removal list. */
  method CollectRemovals(tokens: seq<string>, responses: seq<Dispatch.SendResponse>) returns (pruned: seq<string>)
    requires |responses| == |tokens|
    ensures |pruned| <= |tokens|
    ensures pruned == Dispatch.RemovalList(tokens, responses)
  {
    pruned := [];
    var index := 0;
    while index < |responses|
      invariant 0 <= index <= |responses|
      invariant pruned == Dispatch.RemovalList(tokens[..index], responses[..index])
    {
      var outcome := responses[index];
      if !outcome.success {
        if outcome.errorCode.Some? {
          var code := outcome.errorCode.value;
          if code == Dispatch.InvalidRegistrationToken || code == Dispatch.TokenNotRegistered {
            pruned := pruned + [tokens[index]];
          }
        }
      }
      assert tokens[..index + 1][..index] == tokens[..index];
      assert responses[..index + 1][..index] == responses[..index];
      index := index + 1;
    }
    assert tokens[..index] == tokens && responses[..index] == responses;
  }
}

=== FILE: presence.dfy ===
/** The presence reconciler: a heartbeat written to or deleted from
    `status/{uid}` becomes an update of the `status` and `lastSeen` fields
    of `users/{uid}`. */
module Presence {
  import opened Wrappers

  datatype Status = Online | Offline

  /** A value written to `lastSeen`: the server's commit time (an opaque
      sentinel), or whatever the heartbeat carried under `timestamp`
      (`None` when it carried nothing). */
  datatype Stamp = ServerTime | ClientTime(value: Option<int>)

  /** The heartbeat payload after the change. */
  datatype Heartbeat = Heartbeat(status: Option<string>, timestamp: Option<int>)

  /** A field update of the user document; `lastSeen == None` means the
      update leaves `lastSeen` untouched. */
  datatype StatusUpdate = StatusUpdate(status: Status, lastSeen: Option<Stamp>)

  /** The presence part of a user document. */
  datatype PresenceDoc = PresenceDoc(status: Option<Status>, lastSeen: Option<Stamp>)

  /** The update issued for a heartbeat change; `after == None` is the
      deletion of the heartbeat (an ungraceful disconnect). */
  function Reconcile(after: Option<Heartbeat>): (u: Option<StatusUpdate>)
    ensures after.None? ==> u == Some(StatusUpdate(Offline, Some(ServerTime)))
    ensures after.Some? && after.value.status == Some("online") ==>
              u == Some(StatusUpdate(Online, None))
    ensures after.Some? && after.value.status == Some("offline") ==>
              u == Some(StatusUpdate(Offline, Some(ClientTime(after.value.timestamp))))
    ensures u.None? <==>
              after.Some? && after.value.status != Some("online") && after.value.status != Some("offline")
    ensures u.Some? ==> (u.value.status == Offline <==> u.value.lastSeen.Some?)
  {
    match after
    case None => Some(StatusUpdate(Offline, Some(ServerTime)))
    case Some(beat) =>
      if beat.status == Some("online") then Some(StatusUpdate(Online, None))
      else if beat.status == Some("offline") then Some(StatusUpdate(Offline, Some(ClientTime(beat.timestamp))))
      else None
  }

  /** A Firestore field update: named fields are overwritten, others kept. */
  function Apply(doc: PresenceDoc, u: StatusUpdate): PresenceDoc {
    PresenceDoc(Some(u.status), if u.lastSeen.Some? then u.lastSeen else doc.lastSeen)
  }

  /** Firestore refuses an update that carries an `undefined` value, and an
      offline heartbeat without a timestamp issues exactly such an update. */
  predicate Writable(u: StatusUpdate) {
    u.lastSeen != Some(ClientTime(None))
  }

  /** The user document after one heartbeat change has been reconciled: an
      unrecognised heartbeat issues nothing and a refused update changes nothing. */
  function Observe(doc: PresenceDoc, after: Option<Heartbeat>): PresenceDoc {
    match Reconcile(after)
    case None => doc
    case Some(u) => if Writable(u) then Apply(doc, u) else doc
  }

  /** An offline user always has a defined `lastSeen`. */
  predicate Consistent(doc: PresenceDoc) {
    doc.status == Some(Offline) ==> doc.lastSeen.Some? && doc.lastSeen.value != ClientTime(None)
  }

  /** Reconciling one change keeps an offline user's `lastSeen` defined,
      and a user who comes online keeps the `lastSeen` they had. */
  lemma ObservePreservesConsistent(doc: PresenceDoc, after: Option<Heartbeat>)
    requires Consistent(doc)
    ensures Consistent(Observe(doc, after))
    ensures Observe(doc, after).status == Some(Online) ==>
              Observe(doc, after).lastSeen == doc.lastSeen
  {
  }

  /** An "offline" heartbeat without a timestamp leaves the user document
      exactly as it was: the update it issues is refused. */
  lemma UndatedOfflineRefused(doc: PresenceDoc, after: Option<Heartbeat>)
    requires after.Some? && after.value.status == Some("offline") && after.value.timestamp.None?
    ensures Reconcile(after).Some? && !Writable(Reconcile(after).value)
    ensures Observe(doc, after) == doc
  {
  }

  /** Delivering the same heartbeat change twice has the effect of once. */
  lemma ObserveIdempotent(doc: PresenceDoc, after: Option<Heartbeat>)
    ensures Observe(Observe(doc, after), after) == Observe(doc, after)
  {
  }

  /** The user document after a stream of heartbeat changes, in order. */
  function Replay(doc: PresenceDoc, changes: seq<Option<Heartbeat>>): PresenceDoc
    decreases |changes|
  {
    if |changes| == 0 then doc
    else Observe(Replay(doc, changes[..|changes| - 1]), changes[|changes| - 1])
  }

  /** The update of the last change of the stream whose update is issued
      and accepted. */
  function LastWrite(changes: seq<Option<Heartbeat>>): (u: Option<StatusUpdate>)
    ensures u.Some? ==> Writable(u.value)
    ensures u.Some? ==>
              exists i :: 0 <= i < |changes| && Reconcile(changes[i]) == u
                && forall j :: i < j < |changes| ==>
                     Reconcile(changes[j]).None? || !Writable(Reconcile(changes[j]).value)
    ensures u.None? ==> forall i :: 0 <= i < |changes| ==>
                          Reconcile(changes[i]).None? || !Writable(Reconcile(changes[i]).value)
    decreases |changes|
  {
    if |changes| == 0 then None
    else
      var last := changes[|changes| - 1];
      if Reconcile(last).Some? && Writable(Reconcile(last).value) then Reconcile(last)
      else
        var prefix := changes[..|changes| - 1];
        var r := LastWrite(prefix);
        assert forall i :: 0 <= i < |prefix| ==> prefix[i] == changes[i];
        r
  }

  /** The last accepted heartbeat decides the status; an offline status
      carries the `lastSeen` that heartbeat chose; unrecognised heartbeats
      and refused updates change nothing. From a document where an offline
      user has a defined `lastSeen`, that stays so. */
  lemma {:induction false} ReplayLastWins(doc: PresenceDoc, changes: seq<Option<Heartbeat>>)
    ensures Consistent(doc) ==> Consistent(Replay(doc, changes))
    ensures LastWrite(changes).None? ==> Replay(doc, changes) == doc
    ensures LastWrite(changes).Some? ==>
              Replay(doc, changes).status == Some(LastWrite(changes).value.status)
    ensures LastWrite(changes).Some? && LastWrite(changes).value.status == Offline ==>
              Replay(doc, changes).lastSeen == LastWrite(changes).value.lastSeen
    decreases |changes|
  {
    if |changes| > 0 {
      var prefix := changes[..|changes| - 1];
      ReplayLastWins(doc, prefix);
      if Consistent(doc) {
        ObservePreservesConsistent(Replay(doc, prefix), changes[|changes| - 1]);
      }
    }
  }
}

=== FILE: push_content.dfy ===
/** The two handlers that hand a title and body to the push dispatcher:
    a newly stored notification record (`notifications/{id}`) and a new chat
    message (`chats/{chatId}/messages/{id}`). */
module PushContent {
  import opened Wrappers
  import opened Documents
  import Records

  /** A chat message document. */
  datatype ChatMessage = ChatMessage(senderId: Option<string>, text: Option<string>)

  /** A chat document; `participants == None` when the field is absent. */
  datatype Chat = Chat(participants: Option<seq<string>>)

  const DefaultTitle := "New Notification"
  const DefaultBody := "You have a new update."
  const ConnectionTitle := "New Connection Request"
  const CreditTitle := "New Project Credit"
  const DefaultSenderName := "Someone"

  /** The push derived from a stored record: its recipient, and a title and
      body chosen by the record's type. */
  function StoredNotificationPush(record: Option<NotificationRecord>): (p: Option<PushRequest>)
    ensures p.Some? <==> record.Some?
    ensures p.Some? ==> p.value.recipientId == record.value.recipientId
    ensures p.Some? && record.value.kind == Some("connection_request") ==>
              p.value.title == ConnectionTitle
              && p.value.body == Some(Render(record.value.senderName) + " wants to connect with you.")
    ensures p.Some? && record.value.kind == Some(Records.CreditKind) ==>
              p.value.title == CreditTitle && p.value.body == record.value.message
    ensures p.Some? && record.value.kind != Some("connection_request")
              && record.value.kind != Some(Records.CreditKind) ==>
              p.value.title == DefaultTitle && p.value.body == Some(DefaultBody)
  {
    match record
    case None => None
    case Some(rec) =>
      if rec.kind == Some("connection_request") then
        Some(PushRequest(rec.recipientId, ConnectionTitle,
                         Some(Render(rec.senderName) + " wants to connect with you.")))
      else if rec.kind == Some(Records.CreditKind) then
        Some(PushRequest(rec.recipientId, CreditTitle, rec.message))
      else
        Some(PushRequest(rec.recipientId, DefaultTitle, Some(DefaultBody)))
  }

  /** `participants.find(id => id !== senderId)`: the first participant who
      is not the sender. */
  function FirstOther(participants: seq<string>, sender: Option<string>): (r: Option<string>)
    ensures r.None? <==> forall i :: 0 <= i < |participants| ==> Some(participants[i]) == sender
    ensures r.Some? ==> exists i :: 0 <= i < |participants| && participants[i] == r.value
                           && Some(r.value) != sender
                           && forall j :: 0 <= j < i ==> Some(participants[j]) == sender
    decreases |participants|
  {
    if |participants| == 0 then None
    else if Some(participants[0]) != sender then Some(participants[0])
    else
      var rest := FirstOther(participants[1..], sender);
      assert forall i :: 0 < i < |participants| ==> participants[i] == participants[1..][i - 1];
      if rest.Some? then
        ghost var k :| 0 <= k < |participants[1..]| && participants[1..][k] == rest.value
                       && Some(rest.value) != sender
                       && forall j :: 0 <= j < k ==> Some(participants[1..][j]) == sender;
        assert participants[k + 1] == rest.value;
        rest
      else rest
  }

  /** The push for a new chat message. `message` is the message's data,
      `chat` the lookup of the chat document and `sender` the lookup of the
      sender's user document, whose path throws for an empty `senderId`. */
  function ChatPush(message: Option<ChatMessage>, chat: Option<Chat>, sender: Option<UserDoc>)
    : (p: Option<PushRequest>)
    ensures p.Some? <==>
              && message.Some? && chat.Some? && chat.value.participants.Some?
              && Truthy(FirstOther(chat.value.participants.value, message.value.senderId))
              && Addressable(message.value.senderId)
    ensures p.Some? ==>
              && p.value.recipientId == FirstOther(chat.value.participants.value, message.value.senderId)
              && p.value.recipientId != message.value.senderId
              && p.value.recipientId.value in chat.value.participants.value
              && p.value.title == "New Message from "
                   + OrElse(if sender.Some? then sender.value.fullName else None, DefaultSenderName)
              && p.value.body == message.value.text
  {
    if message.None? || chat.None? || chat.value.participants.None? then None
    else
      var recipient := FirstOther(chat.value.participants.value, message.value.senderId);
      if !Truthy(recipient) then None
      else if !Addressable(message.value.senderId) then None
      else
        var name := OrElse(if sender.Some? then sender.value.fullName else None, DefaultSenderName);
        Some(PushRequest(recipient, "New Message from " + name, message.value.text))
  }

  /** In a two-person chat, stored in either order, the push goes to the
      participant who did not send the message. */
  lemma TwoPartyChatRecipient(a: string, b: string, participants: seq<string>,
                              text: Option<string>, sender: Option<UserDoc>)
    requires a != b && a != "" && b != ""
    requires participants == [a, b] || participants == [b, a]
    ensures var p := ChatPush(Some(ChatMessage(Some(a), text)), Some(Chat(Some(participants))), sender);
            p.Some? && p.value.recipientId == Some(b) && p.value.body == text
  {
    if participants == [a, b] {
      assert FirstOther(participants, Some(a)) == FirstOther(participants[1..], Some(a));
    }
  }

  /** A saved credit record becomes a "New Project Credit" push to the
      credited user whose body is the record's message. */
  lemma CreditRecordPush(credit: Option<Records.Credit>, creditId: string,
                         project: Option<Records.Project>, recipient: Option<UserDoc>)
    requires Records.StoredCreditRecord(credit, creditId, project, recipient).Some?
    ensures StoredNotificationPush(Records.StoredCreditRecord(credit, creditId, project, recipient))
              == Some(PushRequest(credit.value.userId, CreditTitle,
                                  Some(Records.CreditMessage(credit.value))))
  {
  }

  /** A saved join-request record becomes the generic push to the project
      creator: its type is neither of the two with dedicated wording. */
  lemma JoinRecordPush(request: Option<Records.JoinRequest>, requestId: string)
    requires Records.JoinNotification(request, requestId).Some?
    ensures StoredNotificationPush(Records.JoinNotification(request, requestId))
              == Some(PushRequest(request.value.projectCreatorId, DefaultTitle, Some(DefaultBody)))
  {
  }
}

=== FILE: records.dfy ===
/** The two handlers that turn a newly created domain document into a
    persisted notification record: credit grants (`credits/{id}`) and join
    requests (`joinRequests/{id}`). Document lookups are inputs; `None`
    stands for a document that does not exist. */
module Records {
  import opened Wrappers
  import opened Documents

  /** A credit document, every field as the handler reads it. */
  datatype Credit = Credit(
    userId: Option<string>,
    projectId: Option<string>,
    role: Option<string>,
    projectTitle: Option<string>,
    creatorName: Option<string>,
    createdBy: Option<string>)

  /** The project document a credit refers to. */
  datatype Project = Project(createdBy: Option<string>)

  /** A join-request document. */
  datatype JoinRequest = JoinRequest(
    status: Option<string>,
    projectCreatorId: Option<string>,
    requestingUserName: Option<string>,
    requestingUserId: Option<string>,
    requestingUserProfilePic: Option<string>,
    projectTitle: Option<string>,
    requestedRole: Option<string>,
    projectId: Option<string>)

  const CreditKind := "credit_request"
  const JoinKind := "join_request"
  const DefaultCreatorName := "A Project Manager"

  /** The name a credit notification is signed with. */
  function CreatorName(credit: Credit): string {
    OrElse(credit.creatorName, DefaultCreatorName)
  }

  /** "<creator> added you as '<role>' on '<title>'" */
  function CreditMessage(credit: Credit): string {
    CreatorName(credit) + " added you as '" + Render(credit.role)
      + "' on '" + Render(credit.projectTitle) + "'"
  }

  /** "<requester> requested to join '<title>' as '<role>'." */
  function JoinMessage(request: JoinRequest): string {
    Render(request.requestingUserName) + " requested to join '" + Render(request.projectTitle)
      + "' as '" + Render(request.requestedRole) + "'."
  }

  /** The record saved for a newly created credit, if any. `credit` is the
      created document's data, `project` the lookup of `projects/<projectId>`
      and `recipient` the lookup of `users/<userId>`. An id that cannot
      address a document makes its lookup throw, and nothing is built. */
  function CreditNotification(credit: Option<Credit>, creditId: string,
                              project: Option<Project>, recipient: Option<UserDoc>)
    : (r: Option<NotificationRecord>)
    ensures r.None? <==>
              || credit.None?
              || !Addressable(credit.value.projectId)
              || project.None?
              || credit.value.userId == project.value.createdBy
              || !Addressable(credit.value.userId)
              || recipient.None?
    ensures r.Some? ==>
              && r.value.recipientId == credit.value.userId
              && r.value.recipientId != project.value.createdBy
              && r.value.kind == Some(CreditKind)
              && r.value.referenceId == Some(creditId)
              && r.value.senderName == Some(CreatorName(credit.value))
              && r.value.message == Some(CreditMessage(credit.value))
              && r.value.senderId.None? && r.value.senderProfilePic.None? && r.value.projectId.None?
              && !r.value.isRead
  {
    if credit.None? then None
    else if !Addressable(credit.value.projectId) then None
    else if project.None? then None
    else if credit.value.userId == project.value.createdBy then None
    else if !Addressable(credit.value.userId) then None
    else if recipient.None? then None
    else
      var c := credit.value;
      Some(NotificationRecord(
        recipientId := c.userId,
        senderName := Some(CreatorName(c)),
        senderId := None,
        senderProfilePic := None,
        kind := Some(CreditKind),
        message := Some(CreditMessage(c)),
        referenceId := Some(creditId),
        projectId := None,
        isRead := false))
  }

  /** The record saved for a newly created join request, if any. */
  function JoinNotification(request: Option<JoinRequest>, requestId: string): (r: Option<NotificationRecord>)
    ensures r.Some? <==> request.Some? && request.value.status == Some("pending")
    ensures r.Some? ==>
              && r.value.recipientId == request.value.projectCreatorId
              && r.value.kind == Some(JoinKind)
              && r.value.referenceId == Some(requestId)
              && r.value.senderName == request.value.requestingUserName
              && r.value.senderId == request.value.requestingUserId
              && r.value.senderProfilePic == request.value.requestingUserProfilePic
              && r.value.projectId == request.value.projectId
              && r.value.message == Some(JoinMessage(request.value))
              && !r.value.isRead
  {
    match request
    case None => None
    case Some(q) =>
      if q.status != Some("pending") then None
      else
        Some(NotificationRecord(
          recipientId := q.projectCreatorId,
          senderName := q.requestingUserName,
          senderId := q.requestingUserId,
          senderProfilePic := q.requestingUserProfilePic,
          kind := Some(JoinKind),
          message := Some(JoinMessage(q)),
          referenceId := Some(requestId),
          projectId := q.projectId,
          isRead := false))
  }

  /** Firestore's `add()` refuses a document with an `undefined` field
      value. These are the fields the join-request handler writes from the
      request, each as read (so possibly undefined). */
  predicate JoinFieldsDefined(q: JoinRequest) {
    && q.projectCreatorId.Some? && q.requestingUserName.Some? && q.requestingUserId.Some?
    && q.requestingUserProfilePic.Some? && q.projectId.Some?
  }

  /** The join-request record that is actually stored, as the handler is
      written: the built record, unless `add()` refuses it for an undefined
      field (the handler then logs the error and stores nothing). */
  function StoredJoinRecord(request: Option<JoinRequest>, requestId: string): (r: Option<NotificationRecord>)
    ensures r.Some? <==> request.Some? && request.value.status == Some("pending")
                         && JoinFieldsDefined(request.value)
    ensures r.Some? ==> r == JoinNotification(request, requestId)
  {
    var built := JoinNotification(request, requestId);
    if built.Some? && JoinFieldsDefined(request.value) then built else None
  }

  /** A pending request without a profile picture, a field the handler
      itself treats as optional, is built into a record that is never stored. */
  lemma JoinWithoutPictureNotStored(requestId: string)
    ensures var q := JoinRequest(
              status := Some("pending"), projectCreatorId := Some("U1"),
              requestingUserName := Some("Bo"), requestingUserId := Some("U3"),
              requestingUserProfilePic := None, projectTitle := Some("Film X"),
              requestedRole := Some("Grip"), projectId := Some("P1"));
            JoinNotification(Some(q), requestId).Some? && StoredJoinRecord(Some(q), requestId).None?
  {
  }

  /** The credit record that is actually stored, as the handler is written:
      the built record, unless its `recipientId` (the credit's `userId`) is
      undefined, in which case `add()` throws and nothing is stored. */
  function StoredCreditRecord(credit: Option<Credit>, creditId: string,
                              project: Option<Project>, recipient: Option<UserDoc>)
    : (r: Option<NotificationRecord>)
    ensures r.Some? <==> CreditNotification(credit, creditId, project, recipient).Some?
                         && credit.value.userId.Some?
    ensures r.Some? ==> r == CreditNotification(credit, creditId, project, recipient)
  {
    var built := CreditNotification(credit, creditId, project, recipient);
    if built.Some? && built.value.recipientId.Some? then built else None
  }

  /** A credit whose creator name is absent or empty is signed
      "A Project Manager"; otherwise the message opens with the creator's name. */
  lemma CreditMessageSigned(credit: Credit)
    ensures !Truthy(credit.creatorName) ==>
              CreditMessage(credit)[..|DefaultCreatorName|] == DefaultCreatorName
    ensures Truthy(credit.creatorName) ==>
              CreditMessage(credit)[..|credit.creatorName.value|] == credit.creatorName.value
  {
  }
}

=== FILE: scenarios.dfy ===
/** Worked examples of the handlers on concrete documents. */
module Scenarios {
  import opened Wrappers
  import opened Documents
  import Records
  import Presence
  import Dispatch
  import TokenSet

  function FilmCredit(): Records.Credit {
    Records.Credit(
      userId := Some("U2"), projectId := Some("P1"), role := Some("Editor"),
      projectTitle := Some("Film X"), creatorName := Some("Alice"), createdBy := Some("U1"))
  }

  /** A credit for someone other than the project's creator produces one
      record addressed to the credited user. */
  lemma CreditForOtherUser(recipient: UserDoc)
    ensures var r := Records.CreditNotification(Some(FilmCredit()), "C1",
                                                 Some(Records.Project(Some("U1"))), Some(recipient));
            && r.Some?
            && r.value.recipientId == Some("U2")
            && r.value.kind == Some("credit_request")
            && r.value.referenceId == Some("C1")
            && r.value.message == Some("Alice added you as 'Editor' on 'Film X'")
  {
    assert Records.CreatorName(FilmCredit()) == "Alice";
    assert Records.CreditMessage(FilmCredit())
             == "Alice" + " added you as '" + "Editor" + "' on '" + "Film X" + "'";
    assert "Alice" + " added you as '" + "Editor" + "' on '" + "Film X" + "'"
             == "Alice added you as 'Editor' on 'Film X'";
  }

  /** The same credit on a project the credited user created produces nothing. */
  lemma CreditForCreator(recipient: UserDoc)
    ensures Records.CreditNotification(Some(FilmCredit()), "C1",
                                       Some(Records.Project(Some("U2"))), Some(recipient)).None?
  {
  }

  /** A deleted heartbeat marks the user offline at the server's time. */
  lemma HeartbeatDeleted(doc: Presence.PresenceDoc)
    ensures Presence.Observe(doc, None)
              == Presence.PresenceDoc(Some(Presence.Offline), Some(Presence.ServerTime))
  {
  }

  /** Of three tokens, only the one reported unregistered is pruned; the one
      that failed with a transient error stays. */
  lemma PruneUnregisteredOnly(push: PushRequest)
    requires push.recipientId == Some("U2")
    ensures var tokens := ["t1", "t2", "t3"];
            var reply := Dispatch.Responded([
              Dispatch.SendResponse(true, None),
              Dispatch.SendResponse(false, Some(Dispatch.TokenNotRegistered)),
              Dispatch.SendResponse(false, Some("messaging/unavailable"))]);
            var d := Dispatch.Deliver(push, Some(UserDoc(None, TokenArray(tokens))), reply);
            d.Attempted? && d.prune == Some(["t2"])
            && Dispatch.TokensAfter(tokens, d) == ["t1", "t3"]
  {
    var tokens := ["t1", "t2", "t3"];
    var responses := [
      Dispatch.SendResponse(true, None),
      Dispatch.SendResponse(false, Some(Dispatch.TokenNotRegistered)),
      Dispatch.SendResponse(false, Some("messaging/unavailable"))];
    assert tokens[..2][..1] == ["t1"];
    assert Dispatch.RemovalList(tokens, responses) == ["t2"];
    assert TokenSet.ArrayRemove(tokens, ["t2"]) == ["t1", "t3"] by {
      assert tokens[..2][..1] == ["t1"] && tokens[..2] == ["t1", "t2"];
    }
  }
}

=== FILE: token_set.dfy ===
/** `FieldValue.arrayRemove(...values)` applied to a stored token array:
    every occurrence of every listed value is deleted, everything else is
    kept in its order. */
module TokenSet {

  function ArrayRemove(stored: seq<string>, values: seq<string>): (r: seq<string>)
    ensures |r| <= |stored|
    ensures forall t :: t in r <==> t in stored && t !in values
    decreases |stored|
  {
    if |stored| == 0 then []
    else
      var n := |stored| - 1;
      var prefix := ArrayRemove(stored[..n], values);
      assert stored == stored[..n] + [stored[n]];
      if stored[n] in values then prefix else prefix + [stored[n]]
  }

  /** The removal distributes over concatenation: tokens registered
      concurrently (appended to the array) are filtered on their own and
      never disturb the order of the others. */
  lemma {:induction false} ArrayRemoveAppend(a: seq<string>, b: seq<string>, values: seq<string>)
    ensures ArrayRemove(a + b, values) == ArrayRemove(a, values) + ArrayRemove(b, values)
    decreases |b|
  {
    if |b| > 0 {
      var n := |b| - 1;
      assert (a + b)[..|a + b| - 1] == a + b[..n];
      ArrayRemoveAppend(a, b[..n], values);
    } else {
      assert a + b == a;
    }
  }

  /** Removing values the array does not hold changes nothing. */
  lemma {:induction false} ArrayRemoveNoMatch(stored: seq<string>, values: seq<string>)
    requires forall t :: t in values ==> t !in stored
    ensures ArrayRemove(stored, values) == stored
    decreases |stored|
  {
    if |stored| > 0 {
      var n := |stored| - 1;
      ArrayRemoveNoMatch(stored[..n], values);
      assert stored == stored[..n] + [stored[n]];
    }
  }

  /** Repeating the same removal is harmless. */
  lemma ArrayRemoveIdempotent(stored: seq<string>, values: seq<string>)
    ensures ArrayRemove(ArrayRemove(stored, values), values) == ArrayRemove(stored, values)
  {
    ArrayRemoveNoMatch(ArrayRemove(stored, values), values);
  }

  /** Adding a value to the removal list that the array does not hold
      changes nothing. */
  lemma {:induction false} ArrayRemoveExtraValue(stored: seq<string>, values: seq<string>, x: string)
    requires x !in stored
    ensures ArrayRemove(stored, values + [x]) == ArrayRemove(stored, values)
    decreases |stored|
  {
    if |stored| > 0 {
      var n := |stored| - 1;
      assert stored[n] in stored;
      assert stored[n] in values + [x] <==> stored[n] in values;
      ArrayRemoveExtraValue(stored[..n], values, x);
    }
  }
}

=== FILE: wrappers.dfy ===
/** The optional value used for every document field that may be absent
    (a JavaScript `undefined`) and for every handler that may decide to do nothing. */
module Wrappers {

  datatype Option<+T> = None | Some(value: T)
}
